=== FILE: README.md ===
# Snax snackbar: the presentation state machine, in Dafny

Snax is a Jetpack Compose snackbar library. Its only real logic is a small
presentation state machine split across two pieces:

- the **controller** `SnaxState`, which holds one optional current request
  (`SnaxData`) and a boolean `updateState` that `setData` negates on every
  submission (`clearData` forgets the request and leaves the flag alone);
- the **composable** `Snax`, which remembers a `showSnax` flag and runs a
  `DisposableEffect` keyed on `updateState`. Each run of the effect shows the
  banner when a request is present and, when the request has no action,
  schedules a one-shot timer that hides it after the composable's `duration`
  (default 3000 ms). Disposing the effect on a re-key cancels its timer. The
  action button hides the banner and then calls the action.

Plus one pure lookup from the request type to the overlay tint, icon and progress
bar colour.

The model is functional. `SnaxWidget.Model` holds the controller, the composable's
state, and a log of action calls. The composable's state is:
- `showSnax`;
- the request the banner's content was last composed with. A composition composes
  the content only when it reads `showSnax` true (`AnimatedVisibility`,
  `Snax.kt:85-89`), and the effect runs after the composition, so a banner the
  effect has just shown gets its content, and its action button, only at the next
  recomposition;
- the live effect run and that run's pending timer;
- a fresh-id counter for effect runs.

`SnaxWidget.Step` applies one event:
- `SetData` and `ClearData`, the controller's two operations;
- `Recompose(duration)`, a composition with that `duration` argument. It composes
  the content from the current request if the banner is shown, and disposes and
  re-runs the effect when the flag differs from the effect's key;
- `Unmount`;
- `TimerFire(owner)`, the timer scheduled by effect run `owner` firing;
- `ActionTap`.

`SnaxWidget.Run` applies a sequence of events.

Callbacks are opaque ids. Each action call is logged as `Call(action, bannerShown)`.
`ActionTapped` hides the banner and then logs the value `showSnax` has at that point.
So the hide-then-call order is written into the log by construction, not derived.
`java.util.Timer.schedule` throws for a negative delay. A recomposition that must
schedule a hide with a negative `duration` therefore yields the fault
`IllegalDelay`, which is why `Step` and `Run` return a `Result`.

Because `updateState` is a toggle and not a counter, two submissions between
recompositions flip it back. The recomposition sees its key unchanged and does not
restart the effect. It reads the second request, but `showSnax` and the old timer
stay as they were:
- if the banner was hidden, the second request is stored but not shown. No later
  clear, recomposition, timer firing or tap shows it. Only a further submission, or
  the composable leaving and re-entering the composition, can
  (`SnaxProperties.DoubleSubmitWhileHiddenStaysHidden`);
- if it was visible, it shows the second request. The earlier run's timer, if one
  is pending, hides it (`SnaxProperties.DoubleSubmitWhileVisibleKeepsOldTimer`). If
  the second request has an action, a tap on its button hides it
  (`SnaxProperties.DoubleSubmitWhileVisibleTapHides`). With neither, it stays on
  screen until a further submission or until the composable leaves the composition
  (`SnaxProperties.DoubleSubmitWhileVisibleWithoutTimerStays`).

`SnaxProperties.DoubleSubmitLeavesWidgetAlone` states the general case.
`SnaxProperties.FlagRecordsSubmissionParity` shows that the flag records only the
parity of the number of submissions.

What the code does, where its comments or argument lists suggest more:
- The KDoc of `setData` documents a `duration` and an `onDismiss` callback
  (`SnaxState.kt:35-36`), and `setData` passes both to the record. The record
  declares neither (`SnaxData.kt:14-20`). The model accepts both arguments and keeps
  neither, and nothing in the library calls `onDismiss`.
- The controller tracks submissions with a toggled boolean. Besides `showSnax`, the
  composable keeps no phase or generation state; it also holds the latest request
  (`rememberUpdatedState`, `Snax.kt:66`) and the effect's timer (`Snax.kt:72`).
  Nothing in the library calls `clearData`.
- The composable's `when` blocks have arms only for ERROR, INFO, SUCCESS, WARNING
  and `null`; LOADING and CUSTOM get none. The lookups return `None` for those two.
- The hide timer waits the `duration` argument of the composition that started the
  effect, not any per-request duration.

Files: `wrappers.dfy` (Option, Result), `snax_types.dfy` (records and enums),
`snax_state.dfy` (controller), `palette.dfy` (type lookups), `snax_widget.dfy`
(composable logic and the step function), `snax_properties.dfy` (event-sequence
properties).

## Model

| member | source | states |
|---|---|---|
| SnaxState.Fresh | snax/src/main/java/com/vimilad/snax/SnaxState.kt:18-24 | a new controller holds no request and its flag is false |
| SnaxState.SetData | snax/src/main/java/com/vimilad/snax/SnaxState.kt:38-57 | always succeeds; the stored request is built from the given type, message, title, action title and action only; the flag is negated |
| SnaxState.ClearData | snax/src/main/java/com/vimilad/snax/SnaxState.kt:62-64 | the request becomes none and the flag keeps its value |
| SnaxState.SetDataDefaults | snax/src/main/java/com/vimilad/snax/SnaxState.kt:41-45 | omitted optional arguments store no title, no action title and no action (the omitted 3000 ms duration and callback are dropped like any others) |
| SnaxState.SetDataForgetsPrevious | snax/src/main/java/com/vimilad/snax/SnaxState.kt:47-55 | the stored request does not depend on the previous one |
| SnaxState.SetDataDropsDurationAndDismiss | snax/src/main/java/com/vimilad/snax/SnaxState.kt:44-54 | the per-request duration and dismissal callback leave no trace in the controller |
| SnaxState.TwoSubmissionsRestoreFlag | snax/src/main/java/com/vimilad/snax/SnaxState.kt:56 | two submissions in a row restore the flag while the second request is stored |
| SnaxState.ClearKeepsSubmissionFlip | snax/src/main/java/com/vimilad/snax/SnaxState.kt:56-64 | clearing after a submission leaves the flag flipped |
| SnaxState.FlagIsSubmissionParity | snax/src/main/java/com/vimilad/snax/SnaxState.kt:24-64 | after any sequence of submissions and clears, the flag equals its start value iff the number of submissions is even |
| SnaxState.DataIsLastSubmission | snax/src/main/java/com/vimilad/snax/SnaxState.kt:47-63 | after any sequence of operations the stored request is the last one submitted, or none after a final clear |
| Palette.OverlayFor | snax/src/main/java/com/vimilad/snax/Snax.kt:102-108 | the overlay tint exists exactly for ERROR, INFO, SUCCESS, WARNING and no request, and is drawn at 30% alpha |
| Palette.IconFor | snax/src/main/java/com/vimilad/snax/Snax.kt:118-124 | an icon exists exactly for ERROR, INFO, SUCCESS, WARNING and no request |
| Palette.ProgressFor | snax/src/main/java/com/vimilad/snax/Snax.kt:178-184 | a progress colour exists exactly for ERROR, INFO, SUCCESS, WARNING and no request |
| Palette.LookupsMatchTable | snax/src/main/java/com/vimilad/snax/Snax.kt:102-184 | the three lookups agree with an independent table: ERROR red/cross, INFO primary/info, SUCCESS green/tick, WARNING yellow/warning, no request yellow/warning/primary |
| Palette.StyledIffInTable | snax/src/main/java/com/vimilad/snax/Snax.kt:102-108 | a type has a style iff it is a key of that table |
| Palette.RequestTypesShareOverlayAndProgress | snax/src/main/java/com/vimilad/snax/Snax.kt:103-106 | for every styled request type the overlay tint and the progress bar share one base colour |
| Palette.NoRequestFallback | snax/src/main/java/com/vimilad/snax/Snax.kt:107-183 | with no request, overlay and icon are WARNING's but the progress bar is INFO's |
| Palette.IconsDistinguishRequestTypes | snax/src/main/java/com/vimilad/snax/Snax.kt:119-122 | the four styled request types have pairwise different icons |
| SnaxWidget.NewWidget | snax/src/main/java/com/vimilad/snax/Snax.kt:65 | a composable starts with the banner hidden, no request read, no effect and no timer |
| SnaxWidget.Initial | snax/src/main/java/com/vimilad/snax/Snax.kt:48-65 | a remembered controller and a fresh composable: no request, flag false, banner hidden, no request read, no calls |
| SnaxWidget.Dispose | snax/src/main/java/com/vimilad/snax/Snax.kt:78-81 | disposing cancels the timer and leaves the banner's visibility and the request read as they are |
| SnaxWidget.RunEffect | snax/src/main/java/com/vimilad/snax/Snax.kt:68-77 | the banner becomes shown iff a request is present, otherwise keeps its visibility; a hide is scheduled iff there is no request or it has no action, owned by this run and waiting the given duration; faults iff that hide has a negative delay |
| SnaxWidget.Recomposed | snax/src/main/java/com/vimilad/snax/Snax.kt:63-89 | composes the content from the current request iff it reads the banner shown, and none otherwise; the effect is restarted iff the flag differs from its key or no effect is live, under the next fresh id (which then advances), with a hide owned by the new run and waiting this composition's duration; otherwise effect and timer are kept; a fault carries the negative delay; the controller is never written |
| SnaxWidget.Unmounted | snax/src/main/java/com/vimilad/snax/Snax.kt:65-81 | leaving the composition cancels the timer, drops the effect and forgets showSnax and the request read |
| SnaxWidget.TimerFired | snax/src/main/java/com/vimilad/snax/Snax.kt:72-76 | only the still-pending timer of the given effect acts, and it only hides the banner; request, flag, request read, effect and calls are untouched |
| SnaxWidget.ActionTapped | snax/src/main/java/com/vimilad/snax/Snax.kt:155-160 | with the button on screen (banner shown and the request its content was last composed with has an action), a tap hides the banner and logs exactly one call of that request's action; otherwise nothing happens |
| SnaxProperties.InitialSatisfiesInv | snax/src/main/java/com/vimilad/snax/Snax.kt:65 | the initial model satisfies the invariant, and the first submission makes the next recomposition run a new effect |
| SnaxProperties.StepPreservesInv | snax/src/main/java/com/vimilad/snax/Snax.kt:68-81 | every event keeps: a pending timer belongs to the live effect, effect ids are below the next fresh id, every logged call records the banner hidden |
| SnaxProperties.RunPreservesInv | snax/src/main/java/com/vimilad/snax/Snax.kt:68-81 | the same invariant holds after any sequence of events |
| SnaxProperties.OnlyLiveEffectTimerActs | snax/src/main/java/com/vimilad/snax/Snax.kt:72-81 | a firing timer changes the model only if it was scheduled by the live effect |
| SnaxProperties.ReplacedEffectsAreFresh | snax/src/main/java/com/vimilad/snax/Snax.kt:68-81 | after any events, a live effect that differs from the starting one has an id no earlier effect had |
| SnaxProperties.StaleTimerCannotHideLaterBanner | snax/src/main/java/com/vimilad/snax/Snax.kt:68-81 | once the effect has been replaced, no timer scheduled earlier can change anything |
| SnaxProperties.SubmissionRestartsEffect | snax/src/main/java/com/vimilad/snax/Snax.kt:63-77 | when the next submission re-keys, one submission then a recomposition restarts the effect under a key equal to the flag and shows the banner; the content is composed with the request only if the banner was already shown; a hide is pending iff the request has no action, with the composition's duration whatever the request's; faults iff that duration is negative and a hide is needed |
| SnaxProperties.DoubleSubmitLeavesWidgetAlone | snax/src/main/java/com/vimilad/snax/Snax.kt:68-71 | two submissions then a recomposition store the second request, compose the content with it iff the banner is shown, and leave showSnax, effect and timer exactly as they were |
| SnaxProperties.HiddenStaysHiddenWhileQuiet | snax/src/main/java/com/vimilad/snax/Snax.kt:65-76 | with the live effect's key matching the flag and the banner hidden, any sequence of clears, recompositions, timer firings and taps succeeds and leaves it hidden |
| SnaxProperties.DoubleSubmitWhileHiddenStaysHidden | snax/src/main/java/com/vimilad/snax/Snax.kt:65-71 | if the banner was hidden, a double submission is stored but stays hidden through the recomposition and any later clears, recompositions, timer firings and taps |
| SnaxProperties.DoubleSubmitWhileVisibleKeepsOldTimer | snax/src/main/java/com/vimilad/snax/Snax.kt:68-76 | if the banner was visible with a pending timer, a double submission keeps it shown with the second request, and the earlier run's timer then hides it |
| SnaxProperties.TapCallsComposedAction | snax/src/main/java/com/vimilad/snax/Snax.kt:155-160 | with the button on screen, a tap after a new submission but before the next recomposition calls the action the button was composed with, hiding the banner |
| SnaxProperties.ButtonNeedsSecondComposition | snax/src/main/java/com/vimilad/snax/Snax.kt:68-89 | when a submission shows a hidden banner, the recomposition that runs the effect composes no button and a tap then does nothing; the next recomposition shows the button iff the request has an action |
| SnaxProperties.VisibleWithoutTimerOrButtonStays | snax/src/main/java/com/vimilad/snax/Snax.kt:68-76 | a visible banner with a matching key, no pending timer and no action in its current or composed request stays shown through any clears, recompositions, timer firings and taps |
| SnaxProperties.DoubleSubmitWhileVisibleWithoutTimerStays | snax/src/main/java/com/vimilad/snax/Snax.kt:68-76 | a double submission of a request without an action to a visible banner with no pending timer leaves it shown through any later clears, recompositions, timer firings and taps |
| SnaxProperties.DoubleSubmitWhileVisibleTapHides | snax/src/main/java/com/vimilad/snax/Snax.kt:155-160 | after a double submission to a visible banner, if the second request has an action a tap hides the banner and calls exactly that action |
| SnaxProperties.NoPendingTimerNoEffect | snax/src/main/java/com/vimilad/snax/Snax.kt:73-77 | with no pending timer, any sequence of timer firings changes nothing |
| SnaxProperties.ActionRequestNeverAutoHides | snax/src/main/java/com/vimilad/snax/Snax.kt:73-77 | a submitted request with an action stays shown through any sequence of timer firings |
| SnaxProperties.PlainRequestHidesOnItsTimer | snax/src/main/java/com/vimilad/snax/Snax.kt:73-76 | a request without an action is hidden by its own effect's timer, which leaves the request and the flag as they were |
| SnaxProperties.CallsComeOnlyFromTaps | snax/src/main/java/com/vimilad/snax/Snax.kt:155-160 | the call log only grows, and by at most one call per tap |
| SnaxProperties.WidgetNeverWritesController | snax/src/main/java/com/vimilad/snax/Snax.kt:65-82 | after any events the controller is what its own submissions and clears make it: the composable only reads it |
| SnaxProperties.FlagRecordsSubmissionParity | snax/src/main/java/com/vimilad/snax/SnaxState.kt:56 | after any events the flag equals its start value iff the number of submissions is even |

## Left out

- The `onDismiss` callback: the library never calls it, and its record has no field for it.
- The per-request `duration`: it is accepted by `setData` and dropped.
- A grace delay after hiding, and a call of `clearData` afterwards: the composable does neither.
- Swipe dismissal: `DismissBehavior` is an enum with no behaviour attached. It is declared in `SnaxTypes`.
- `ProgressStyle`: the enum has no behaviour. The progress bar never shrinks in this code: it is `fillMaxWidth()` with `animateContentSize` (`Snax.kt:170-175`) and nothing changes its width, so there is no countdown to model.
- LOADING and CUSTOM styling: the composable's lookups have no arm for them. The lookups return `None`.
- Rendering: layout, shapes, gradients, text, the white content tint, the 10% icon background, and the enter/exit animations.
- The exit-animation window: `AnimatedVisibility` keeps the content, and the button, composed while it animates out. The model composes no content once a composition reads `showSnax` false and accepts a tap only while `showSnax` is true.
- The timer's daemon thread and its races with the UI thread: a timer firing is one atomic event.
- SnaxWidget.RunEffect: a delay so large that `Timer.schedule` overflows the current time in 64-bit arithmetic is not modelled as a fault; only a negative delay is.
- SnaxWidget.ActionTapped: the action is opaque. Anything it does, such as submitting a new request, is modelled as later events.
- The demo activities and the build scripts: they hold no library logic.

=== FILE: palette.dfy ===
/**
 The type-to-style lookups of the Snax composable: the tinted overlay at the start
 of the banner's gradient, the leading icon, and the progress-bar colour. Each is a
 `when` over the current request's type, with an arm for "no request" (`null`).
 The library's `when` blocks have arms for ERROR, INFO, SUCCESS, WARNING and `null`
 only; LOADING and CUSTOM have no arm, which the lookups report as `None`.
 */
module Palette {
  import opened Wrappers
  import opened SnaxTypes

  /** `Color.copy(0.3f)`: the overlay alpha, in percent. */
  const OverlayAlphaPercent: nat := 30

  /** A colour drawn at reduced opacity. */
  datatype Tint = Tint(base: Color, alphaPercent: nat)

  /** The leading icon drawables. */
  datatype Icon = CrossCircleFill | InfoCircleFill | TickCircleFill | WarningFill

  /** The types the lookups have an arm for. */
  predicate Styled(t: Option<SnaxType>) {
    t.None? || t.value.ERROR? || t.value.INFO? || t.value.SUCCESS? || t.value.WARNING?
  }

  /** Overlay tint at the start of the banner's gradient. */
  function OverlayFor(t: Option<SnaxType>): (r: Option<Tint>)
    ensures r.Some? <==> Styled(t)
    ensures r.Some? ==> r.value.alphaPercent == OverlayAlphaPercent
  {
    match t
    case None => Some(Tint(ColorYellow, OverlayAlphaPercent))
    case Some(ERROR) => Some(Tint(ColorRed, OverlayAlphaPercent))
    case Some(INFO) => Some(Tint(ColorPrimary, OverlayAlphaPercent))
    case Some(SUCCESS) => Some(Tint(ColorGreen, OverlayAlphaPercent))
    case Some(WARNING) => Some(Tint(ColorYellow, OverlayAlphaPercent))
    case Some(_) => None
  }

  /** The leading icon. */
  function IconFor(t: Option<SnaxType>): (r: Option<Icon>)
    ensures r.Some? <==> Styled(t)
  {
    match t
    case None => Some(WarningFill)
    case Some(ERROR) => Some(CrossCircleFill)
    case Some(INFO) => Some(InfoCircleFill)
    case Some(SUCCESS) => Some(TickCircleFill)
    case Some(WARNING) => Some(WarningFill)
    case Some(_) => None
  }

  /** The progress bar's colour. */
  function ProgressFor(t: Option<SnaxType>): (r: Option<Color>)
    ensures r.Some? <==> Styled(t)
  {
    match t
    case None => Some(ColorPrimary)
    case Some(ERROR) => Some(ColorRed)
    case Some(INFO) => Some(ColorPrimary)
    case Some(SUCCESS) => Some(ColorGreen)
    case Some(WARNING) => Some(ColorYellow)
    case Some(_) => None
  }

  /** One row of the style table: a type and the colour, icon and bar it is drawn with. */
  datatype Style = Style(key: Option<SnaxType>, overlay: Color, icon: Icon, progress: Color)

  /**
   The styles of the composable's `when` arms (Snax.kt:102-108, 118-124, 178-184),
   written out as a table independent of the lookups.
   */
  const StyleTable: seq<Style> := [
    Style(Some(ERROR), ColorRed, CrossCircleFill, ColorRed),
    Style(Some(INFO), ColorPrimary, InfoCircleFill, ColorPrimary),
    Style(Some(SUCCESS), ColorGreen, TickCircleFill, ColorGreen),
    Style(Some(WARNING), ColorYellow, WarningFill, ColorYellow),
    Style(None, ColorYellow, WarningFill, ColorPrimary)
  ]

  /** The three lookups agree with the table on every row. */
  lemma LookupsMatchTable(i: nat)
    requires i < |StyleTable|
    ensures OverlayFor(StyleTable[i].key) == Some(Tint(StyleTable[i].overlay, OverlayAlphaPercent))
    ensures IconFor(StyleTable[i].key) == Some(StyleTable[i].icon)
    ensures ProgressFor(StyleTable[i].key) == Some(StyleTable[i].progress)
  {
  }

  /** A type has a style exactly when it is a key of the table. */
  lemma StyledIffInTable(t: Option<SnaxType>)
    ensures Styled(t) <==> exists i :: 0 <= i < |StyleTable| && StyleTable[i].key == t
  {
    if Styled(t) {
      var i := match t
        case None => 4
        case Some(ERROR) => 0
        case Some(INFO) => 1
        case Some(SUCCESS) => 2
        case Some(_) => 3;
      assert StyleTable[i].key == t;
    }
  }

  /** For an actual request type, the overlay and the progress bar share one base colour. */
  lemma RequestTypesShareOverlayAndProgress(t: SnaxType)
    requires Styled(Some(t))
    ensures OverlayFor(Some(t)).value.base == ProgressFor(Some(t)).value
  {
  }

  /**
   With no request, the overlay and icon are WARNING's but the progress bar is INFO's;
   this is the only styled key whose overlay and progress colours differ.
   */
  lemma NoRequestFallback()
    ensures OverlayFor(None) == OverlayFor(Some(WARNING))
    ensures IconFor(None) == IconFor(Some(WARNING))
    ensures ProgressFor(None) == ProgressFor(Some(INFO))
    ensures OverlayFor(None).value.base != ProgressFor(None).value
  {
  }

  /** The four styled request types are told apart by their icon. */
  lemma IconsDistinguishRequestTypes(t1: SnaxType, t2: SnaxType)
    requires Styled(Some(t1)) && Styled(Some(t2))
    requires IconFor(Some(t1)) == IconFor(Some(t2))
    ensures t1 == t2
  {
  }
}

=== FILE: snax_properties.dfy ===
/**
 Properties of the Snax model over sequences of events: what a state keeps
 invariant, why a stale timer can never hide a later banner, why two submissions
 between recompositions go unnoticed, and how action calls relate to taps.
 */
module SnaxProperties {
  import opened Wrappers
  import opened SnaxTypes
  import SnaxState
  import opened SnaxWidget

  /**
   What every reachable model satisfies: a pending timer belongs to the live effect;
   effect ids are below the next fresh id; and every logged action call records the
   banner as hidden. The last clause holds by construction of `ActionTapped`, which
   logs the value `showSnax` has after it has been set to false.
   */
  ghost predicate Inv(m: Model) {
    && (m.widget.timer.Some? ==>
          && m.widget.effect.Some?
          && m.widget.timer.value.owner == m.widget.effect.value.id)
    && (m.widget.effect.Some? ==> m.widget.effect.value.id < m.widget.nextEffect)
    && (forall i :: 0 <= i < |m.calls| ==> !m.calls[i].bannerShown)
  }

  /**
   Either no effect is live (nothing composed yet, or unmounted), or the live effect
   was started with the current flag value, so no submission has flipped the flag
   since the effect last ran. From such a model, one submission makes the next
   recomposition start a new effect run.
   */
  predicate NextSubmissionRekeys(m: Model) {
    m.widget.effect.None? || !Rekeys(m)
  }

  lemma InitialSatisfiesInv()
    ensures Inv(Initial())
    ensures NextSubmissionRekeys(Initial())
  {
  }

  /** Each event preserves the invariant. */
  lemma StepPreservesInv(m: Model, e: Event)
    requires Inv(m)
    requires Step(m, e).Success?
    ensures Inv(Step(m, e).value)
  {
  }

  /** Running one event is taking one step. */
  lemma RunOne(m: Model, e: Event)
    ensures Run(m, [e]) == Step(m, e)
  {
    match Step(m, e)
    case Failure(f) =>
    case Success(m1) => assert Run(m1, []) == Success(m1);
  }

  /** Running a concatenation is running its two halves in turn. */
  lemma {:induction false} RunAppend(m: Model, a: seq<Event>, b: seq<Event>)
    ensures Run(m, a + b) ==
      match Run(m, a)
      case Failure(f) => Failure(f)
      case Success(m1) => Run(m1, b)
    decreases |a|
  {
    if |a| == 0 {
      assert a + b == b;
    } else {
      assert (a + b)[0] == a[0];
      assert (a + b)[1..] == a[1..] + b;
      match Step(m, a[0])
      case Failure(f) =>
      case Success(m1) => RunAppend(m1, a[1..], b);
    }
  }

  /** Every model reached from one satisfying the invariant satisfies it too. */
  lemma {:induction false} RunPreservesInv(m: Model, events: seq<Event>)
    requires Inv(m)
    requires Run(m, events).Success?
    ensures Inv(Run(m, events).value)
    decreases |events|
  {
    if |events| > 0 {
      StepPreservesInv(m, events[0]);
      RunPreservesInv(Step(m, events[0]).value, events[1..]);
    }
  }

  /** Only the live effect's timer can change anything when it fires. */
  lemma OnlyLiveEffectTimerActs(m: Model, owner: nat)
    requires Inv(m)
    requires TimerFired(m, owner) != m
    ensures m.widget.effect.Some? && owner == m.widget.effect.value.id
  {
  }

  /**
   Effect ids only grow: whenever the live effect differs from the one at the start,
   it is a fresh run with an id no earlier effect had.
   */
  lemma {:induction false} ReplacedEffectsAreFresh(m: Model, events: seq<Event>)
    requires Inv(m)
    requires Run(m, events).Success?
    ensures Run(m, events).value.widget.nextEffect >= m.widget.nextEffect
    ensures
      var w := Run(m, events).value.widget;
      w.effect != m.widget.effect && w.effect.Some? ==> w.effect.value.id >= m.widget.nextEffect
    decreases |events|
  {
    if |events| > 0 {
      var m1 := Step(m, events[0]).value;
      StepPreservesInv(m, events[0]);
      ReplacedEffectsAreFresh(m1, events[1..]);
    }
  }

  /**
   A timer created by any effect up to now can never hide the banner once the effect
   has been replaced (by a re-keyed recomposition or by unmounting).
   */
  lemma StaleTimerCannotHideLaterBanner(m: Model, events: seq<Event>, owner: nat)
    requires Inv(m)
    requires owner < m.widget.nextEffect
    requires Run(m, events).Success?
    requires Run(m, events).value.widget.effect != m.widget.effect
    ensures TimerFired(Run(m, events).value, owner) == Run(m, events).value
  {
    var m1 := Run(m, events).value;
    RunPreservesInv(m, events);
    ReplacedEffectsAreFresh(m, events);
    if TimerFired(m1, owner) != m1 {
      OnlyLiveEffectTimerActs(m1, owner);
    }
  }

  /**
   When no submission is pending, one submission followed by a recomposition with
   `duration` restarts the effect under a fresh id and shows the banner; a hide is
   scheduled iff the request has no action, and it waits the composable's `duration`
   whatever duration the request carried. It faults iff a hide is needed and that
   duration is negative.
   */
  lemma SubmissionRestartsEffect(
    m: Model, d: SnaxData, requestDuration: int, onDismiss: Option<DismissId>, duration: int)
    requires NextSubmissionRekeys(m)
    ensures
      var r := Run(m, [SetData(d, requestDuration, onDismiss), Recompose(duration)]);
      && (r.Failure? <==> d.action.None? && duration < 0)
      && (r.Success? ==>
            && r.value.state.data == Some(d)
            && r.value.state.updateState != m.state.updateState
            && r.value.widget.effect.Some?
            && r.value.widget.effect.value.id == m.widget.nextEffect
            && r.value.widget.effect.value.key == r.value.state.updateState
            && r.value.widget.showSnax
            && r.value.widget.composed == (if m.widget.showSnax then Some(d) else None)
            && (r.value.widget.timer.Some? <==> d.action.None?)
            && (r.value.widget.timer.Some? ==>
                  r.value.widget.timer.value.owner == m.widget.nextEffect
                  && r.value.widget.timer.value.delay == duration))
  {
    var m1 := Step(m, SetData(d, requestDuration, onDismiss)).value;
    assert Rekeys(m1);
    assert Run(m, [SetData(d, requestDuration, onDismiss), Recompose(duration)]) == Run(m1, [Recompose(duration)]);
    RunOne(m1, Recompose(duration));
  }

  /**
   Two submissions between recompositions flip the flag back, so the recomposition
   does not restart the effect: the second request is stored and read, but
   `showSnax`, the effect and its timer stay exactly as they were.
   */
  lemma DoubleSubmitLeavesWidgetAlone(
    m: Model, a: SnaxData, b: SnaxData,
    da: int, db: int, oa: Option<DismissId>, ob: Option<DismissId>, duration: int)
    requires m.widget.effect.Some? && !Rekeys(m)
    ensures Run(m, [SetData(a, da, oa), SetData(b, db, ob), Recompose(duration)])
         == Success(m.(state := m.state.(data := Some(b)),
                       widget := m.widget.(composed := if m.widget.showSnax then Some(b) else None)))
  {
    var m1 := Step(m, SetData(a, da, oa)).value;
    var m2 := Step(m1, SetData(b, db, ob)).value;
    assert !Rekeys(m2);
    assert Run(m, [SetData(a, da, oa), SetData(b, db, ob), Recompose(duration)])
        == Run(m1, [SetData(b, db, ob), Recompose(duration)]);
    assert Run(m1, [SetData(b, db, ob), Recompose(duration)]) == Run(m2, [Recompose(duration)]);
    RunOne(m2, Recompose(duration));
  }

  /** Neither a submission nor leaving the composition. */
  predicate Quiet(e: Event) {
    !e.SetData? && !e.Unmount?
  }

  /**
   With a live effect whose key matches the flag and the banner hidden, no sequence
   of clears, recompositions, timer firings and taps shows it again: only a
   submission (which flips the flag) or leaving and re-entering the composition
   (which runs a new effect) can.
   */
  lemma {:induction false} HiddenStaysHiddenWhileQuiet(m: Model, events: seq<Event>)
    requires m.widget.effect.Some? && !Rekeys(m)
    requires !m.widget.showSnax
    requires forall i :: 0 <= i < |events| ==> Quiet(events[i])
    ensures Run(m, events).Success?
    ensures !Run(m, events).value.widget.showSnax
    ensures Run(m, events).value.state.data == m.state.data || Run(m, events).value.state.data.None?
    decreases |events|
  {
    if |events| > 0 {
      var m1 := Step(m, events[0]).value;
      assert forall i :: 0 <= i < |events[1..]| ==> Quiet(events[1..][i]) by {
        forall i | 0 <= i < |events[1..]| ensures Quiet(events[1..][i]) {
          assert events[1..][i] == events[i + 1];
        }
      }
      HiddenStaysHiddenWhileQuiet(m1, events[1..]);
    }
  }

  /**
   So a request submitted twice in a row while the banner is hidden is stored but
   stays hidden through the recomposition and any later clears, recompositions,
   timer firings and taps, until a further submission or until the composable
   leaves and re-enters the composition.
   */
  lemma DoubleSubmitWhileHiddenStaysHidden(
    m: Model, a: SnaxData, b: SnaxData,
    da: int, db: int, oa: Option<DismissId>, ob: Option<DismissId>, duration: int,
    later: seq<Event>)
    requires m.widget.effect.Some? && !Rekeys(m)
    requires !m.widget.showSnax
    requires forall i :: 0 <= i < |later| ==> Quiet(later[i])
    ensures
      var r := Run(m, [SetData(a, da, oa), SetData(b, db, ob), Recompose(duration)] + later);
      && r.Success? && !r.value.widget.showSnax
      && (r.value.state.data == Some(b) || r.value.state.data.None?)
  {
    var pre := [SetData(a, da, oa), SetData(b, db, ob), Recompose(duration)];
    DoubleSubmitLeavesWidgetAlone(m, a, b, da, db, oa, ob, duration);
    RunAppend(m, pre, later);
    HiddenStaysHiddenWhileQuiet(Run(m, pre).value, later);
  }

  /**
   While the banner is visible, a double submission makes it show the second request,
   but the earlier run's timer is still the pending one: when it fires it hides the
   second request, whatever that request's action or duration.
   */
  lemma DoubleSubmitWhileVisibleKeepsOldTimer(
    m: Model, a: SnaxData, b: SnaxData,
    da: int, db: int, oa: Option<DismissId>, ob: Option<DismissId>, duration: int)
    requires m.widget.effect.Some? && !Rekeys(m)
    requires m.widget.showSnax && m.widget.timer.Some?
    ensures
      var r := Run(m, [SetData(a, da, oa), SetData(b, db, ob), Recompose(duration)]);
      && r.Success? && r.value.widget.showSnax && r.value.widget.composed == Some(b)
      && r.value.widget.timer == m.widget.timer
      && !TimerFired(r.value, m.widget.timer.value.owner).widget.showSnax
      && TimerFired(r.value, m.widget.timer.value.owner).state.data == Some(b)
  {
    DoubleSubmitLeavesWidgetAlone(m, a, b, da, db, oa, ob, duration);
  }

  /**
   A tap before the next recomposition calls the action the button was built with,
   not the one of a request submitted since.
   */
  lemma TapCallsComposedAction(m: Model, b: SnaxData, db: int, ob: Option<DismissId>)
    requires ButtonShown(m)
    ensures
      var r := Run(m, [SetData(b, db, ob), ActionTap]);
      && r.Success?
      && r.value.calls == m.calls + [Call(m.widget.composed.value.action.value, false)]
      && !r.value.widget.showSnax
  {
    var m1 := Step(m, SetData(b, db, ob)).value;
    assert ButtonShown(m1);
    assert Run(m, [SetData(b, db, ob), ActionTap]) == Run(m1, [ActionTap]);
  }

  /**
   When a submission shows a hidden banner, the composition that runs the effect
   read `showSnax` false and composed no content, so a tap right after it does
   nothing; the next recomposition composes the content, and the button is on
   screen iff the request has an action.
   */
  lemma ButtonNeedsSecondComposition(
    m: Model, d: SnaxData, requestDuration: int, onDismiss: Option<DismissId>,
    duration: int, duration2: int)
    requires NextSubmissionRekeys(m)
    requires !m.widget.showSnax
    requires duration >= 0
    ensures
      var r := Run(m, [SetData(d, requestDuration, onDismiss), Recompose(duration)]);
      && r.Success? && r.value.widget.showSnax && !ButtonShown(r.value)
      && ActionTapped(r.value) == r.value
      && Recomposed(r.value, duration2).Success?
      && (ButtonShown(Recomposed(r.value, duration2).value) <==> d.action.Some?)
  {
    SubmissionRestartsEffect(m, d, requestDuration, onDismiss, duration);
  }

  /**
   The worst consequence of the toggle: a visible banner with no pending timer whose
   current and composed requests have no action is never hidden by clears,
   recompositions, timer firings or taps. Only a further submission or leaving the
   composition ends it.
   */
  lemma {:induction false} VisibleWithoutTimerOrButtonStays(m: Model, events: seq<Event>)
    requires m.widget.effect.Some? && !Rekeys(m)
    requires m.widget.showSnax && m.widget.timer.None?
    requires m.state.data.None? || m.state.data.value.action.None?
    requires m.widget.composed.None? || m.widget.composed.value.action.None?
    requires forall i :: 0 <= i < |events| ==> Quiet(events[i])
    ensures Run(m, events).Success?
    ensures Run(m, events).value.widget.showSnax
    decreases |events|
  {
    if |events| > 0 {
      var m1 := Step(m, events[0]).value;
      assert forall i :: 0 <= i < |events[1..]| ==> Quiet(events[1..][i]) by {
        forall i | 0 <= i < |events[1..]| ensures Quiet(events[1..][i]) {
          assert events[1..][i] == events[i + 1];
        }
      }
      VisibleWithoutTimerOrButtonStays(m1, events[1..]);
    }
  }

  /**
   So a visible banner with no pending timer that receives a double submission of a
   request without an action shows that request until a further submission or until
   the composable leaves the composition.
   */
  lemma DoubleSubmitWhileVisibleWithoutTimerStays(
    m: Model, a: SnaxData, b: SnaxData,
    da: int, db: int, oa: Option<DismissId>, ob: Option<DismissId>, duration: int,
    later: seq<Event>)
    requires m.widget.effect.Some? && !Rekeys(m)
    requires m.widget.showSnax && m.widget.timer.None?
    requires b.action.None?
    requires forall i :: 0 <= i < |later| ==> Quiet(later[i])
    ensures
      var r := Run(m, [SetData(a, da, oa), SetData(b, db, ob), Recompose(duration)] + later);
      && r.Success? && r.value.widget.showSnax
  {
    var pre := [SetData(a, da, oa), SetData(b, db, ob), Recompose(duration)];
    DoubleSubmitLeavesWidgetAlone(m, a, b, da, db, oa, ob, duration);
    RunAppend(m, pre, later);
    VisibleWithoutTimerOrButtonStays(Run(m, pre).value, later);
  }

  /**
   The other way out after a double submission while visible: if the second request
   has an action, the recomposition builds its button, and a tap hides the banner
   and calls that action.
   */
  lemma DoubleSubmitWhileVisibleTapHides(
    m: Model, a: SnaxData, b: SnaxData,
    da: int, db: int, oa: Option<DismissId>, ob: Option<DismissId>, duration: int)
    requires m.widget.effect.Some? && !Rekeys(m)
    requires m.widget.showSnax
    requires b.action.Some?
    ensures
      var r := Run(m, [SetData(a, da, oa), SetData(b, db, ob), Recompose(duration), ActionTap]);
      && r.Success? && !r.value.widget.showSnax
      && r.value.calls == m.calls + [Call(b.action.value, false)]
  {
    var pre := [SetData(a, da, oa), SetData(b, db, ob), Recompose(duration)];
    DoubleSubmitLeavesWidgetAlone(m, a, b, da, db, oa, ob, duration);
    RunAppend(m, pre, [ActionTap]);
    assert pre + [ActionTap] == [SetData(a, da, oa), SetData(b, db, ob), Recompose(duration), ActionTap];
    RunOne(Run(m, pre).value, ActionTap);
  }

  /** Timer events for the given owners, in order. */
  function TimerEvents(owners: seq<nat>): seq<Event>
  {
    seq(|owners|, i requires 0 <= i < |owners| => TimerFire(owners[i]))
  }

  /** With no pending timer, no sequence of timer events changes anything. */
  lemma {:induction false} NoPendingTimerNoEffect(m: Model, owners: seq<nat>)
    requires m.widget.timer.None?
    ensures Run(m, TimerEvents(owners)) == Success(m)
    decreases |owners|
  {
    if |owners| > 0 {
      var evs := TimerEvents(owners);
      assert evs[0] == TimerFire(owners[0]);
      assert evs[1..] == TimerEvents(owners[1..]);
      NoPendingTimerNoEffect(m, owners[1..]);
    }
  }

  /**
   A request with an action never hides itself: after it is submitted and composed,
   no timer, however many fire and whoever scheduled them, hides the banner.
   */
  lemma ActionRequestNeverAutoHides(
    m: Model, d: SnaxData, requestDuration: int, onDismiss: Option<DismissId>, duration: int,
    owners: seq<nat>)
    requires NextSubmissionRekeys(m)
    requires d.action.Some?
    ensures
      var r := Run(m, [SetData(d, requestDuration, onDismiss), Recompose(duration)] + TimerEvents(owners));
      r.Success? && r.value.widget.showSnax && r.value.state.data == Some(d)
  {
    var pre := [SetData(d, requestDuration, onDismiss), Recompose(duration)];
    SubmissionRestartsEffect(m, d, requestDuration, onDismiss, duration);
    RunAppend(m, pre, TimerEvents(owners));
    NoPendingTimerNoEffect(Run(m, pre).value, owners);
  }

  /**
   A request without an action is hidden by its own effect's timer, and the firing
   touches neither the stored request nor the flag.
   */
  lemma PlainRequestHidesOnItsTimer(
    m: Model, d: SnaxData, requestDuration: int, onDismiss: Option<DismissId>, duration: int)
    requires NextSubmissionRekeys(m)
    requires d.action.None?
    requires duration >= 0
    ensures
      var r := Run(m, [SetData(d, requestDuration, onDismiss), Recompose(duration), TimerFire(m.widget.nextEffect)]);
      && r.Success?
      && !r.value.widget.showSnax
      && r.value.state.data == Some(d)
      && r.value.state.updateState != m.state.updateState
  {
    var pre := [SetData(d, requestDuration, onDismiss), Recompose(duration)];
    SubmissionRestartsEffect(m, d, requestDuration, onDismiss, duration);
    RunAppend(m, pre, [TimerFire(m.widget.nextEffect)]);
    assert pre + [TimerFire(m.widget.nextEffect)]
        == [SetData(d, requestDuration, onDismiss), Recompose(duration), TimerFire(m.widget.nextEffect)];
  }

  /** Number of taps in a sequence of events. */
  function Taps(events: seq<Event>): nat
    decreases |events|
  {
    if |events| == 0 then 0
    else (if events[0].ActionTap? then 1 else 0) + Taps(events[1..])
  }

  /**
   Actions are only ever called by taps, at most once per tap, and the log of calls
   only grows.
   */
  lemma {:induction false} CallsComeOnlyFromTaps(m: Model, events: seq<Event>)
    requires Run(m, events).Success?
    ensures
      var calls := Run(m, events).value.calls;
      && |m.calls| <= |calls| <= |m.calls| + Taps(events)
      && calls[..|m.calls|] == m.calls
    decreases |events|
  {
    if |events| > 0 {
      var m1 := Step(m, events[0]).value;
      CallsComeOnlyFromTaps(m1, events[1..]);
      var calls := Run(m, events).value.calls;
      assert m1.calls[..|m.calls|] == m.calls;
      assert calls[..|m1.calls|][..|m.calls|] == calls[..|m.calls|];
    }
  }

  /** The controller operations among a sequence of events. */
  function ControllerOps(events: seq<Event>): seq<SnaxState.Op>
    decreases |events|
  {
    if |events| == 0 then []
    else
      var rest := ControllerOps(events[1..]);
      match events[0]
      case SetData(d, _, _) => [SnaxState.Submit(d)] + rest
      case ClearData => [SnaxState.Clear] + rest
      case _ => rest
  }

  /** The composable never writes to the controller: only submissions and clears change it. */
  lemma {:induction false} WidgetNeverWritesController(m: Model, events: seq<Event>)
    requires Run(m, events).Success?
    ensures Run(m, events).value.state == SnaxState.Apply(m.state, ControllerOps(events))
    decreases |events|
  {
    if |events| > 0 {
      var m1 := Step(m, events[0]).value;
      WidgetNeverWritesController(m1, events[1..]);
    }
  }

  /** Number of submissions in a sequence of events. */
  function SubmitCount(events: seq<Event>): nat
    decreases |events|
  {
    if |events| == 0 then 0
    else (if events[0].SetData? then 1 else 0) + SubmitCount(events[1..])
  }

  lemma {:induction false} SubmitCountMatchesOps(events: seq<Event>)
    ensures SnaxState.Submissions(ControllerOps(events)) == SubmitCount(events)
    decreases |events|
  {
    if |events| > 0 {
      SubmitCountMatchesOps(events[1..]);
      var rest := ControllerOps(events[1..]);
      match events[0]
      case SetData(d, _, _) =>
        assert ([SnaxState.Submit(d)] + rest)[1..] == rest;
      case ClearData =>
        assert ([SnaxState.Clear] + rest)[1..] == rest;
      case _ =>
    }
  }

  /**
   The flag the effect is keyed on only records the parity of the number of
   submissions: after any run it equals its start value iff that number is even.
   */
  lemma FlagRecordsSubmissionParity(m: Model, events: seq<Event>)
    requires Run(m, events).Success?
    ensures Run(m, events).value.state.updateState
         == (m.state.updateState != (SubmitCount(events) % 2 == 1))
  {
    WidgetNeverWritesController(m, events);
    SnaxState.FlagIsSubmissionParity(m.state, ControllerOps(events));
    SubmitCountMatchesOps(events);
  }
}

=== FILE: snax_state.dfy ===
/**
 The Snax controller: one optional current request and the `updateState` flag
 the composable keys its effect on. Submitting a request replaces the current one
 and flips the flag; clearing forgets the request and leaves the flag alone.
 */
module SnaxState {
  import opened Wrappers
  import opened SnaxTypes

  /** Default per-request duration accepted by `SetData`, in milliseconds. */
  const DefaultRequestDuration: int := 3000

  datatype Controller = Controller(data: Option<SnaxData>, updateState: bool)

  /** A newly remembered controller: no request, flag down. */
  function Fresh(): (c: Controller)
    ensures c.data == None
    ensures !c.updateState
  {
    Controller(None, false)
  }

  /**
   Submits a request. The stored record is built from the arguments alone, so the
   previous request is forgotten; the flag is negated. `duration` and `onDismiss`
   are accepted but the record has no field to keep them in.
   */
  function SetData(
    c: Controller,
    snaxType: SnaxType,
    message: string,
    title: Option<string> := None,
    actionTitle: Option<string> := None,
    action: Option<ActionId> := None,
    duration: int := DefaultRequestDuration,
    onDismiss: Option<DismissId> := None
  ): (r: Controller)
    ensures r.data.Some?
    ensures r.data.value.snaxType == snaxType && r.data.value.message == message
    ensures r.data.value.title == title && r.data.value.actionTitle == actionTitle
    ensures r.data.value.action == action
    ensures r.updateState != c.updateState
  {
    Controller(Some(SnaxData(snaxType, message, title, actionTitle, action)), !c.updateState)
  }

  /** Forgets the current request; the flag keeps its value. */
  function ClearData(c: Controller): (r: Controller)
    ensures r.data.None?
    ensures r.updateState == c.updateState
  {
    c.(data := None)
  }

  /**
   Omitted optional arguments mean no title, no action title and no action. (The
   omitted duration, 3000 ms, and callback leave no trace: see
   `SetDataDropsDurationAndDismiss`.)
   */
  lemma SetDataDefaults(c: Controller, snaxType: SnaxType, message: string)
    ensures SetData(c, snaxType, message).data
         == Some(SnaxData(snaxType, message, None, None, None))
  {
  }

  /** The stored request does not depend on what was stored before. */
  lemma SetDataForgetsPrevious(
    c1: Controller, c2: Controller, snaxType: SnaxType, message: string,
    title: Option<string>, actionTitle: Option<string>, action: Option<ActionId>,
    duration: int, onDismiss: Option<DismissId>)
    ensures SetData(c1, snaxType, message, title, actionTitle, action, duration, onDismiss).data
         == SetData(c2, snaxType, message, title, actionTitle, action, duration, onDismiss).data
  {
  }

  /** The per-request duration and dismissal callback leave no trace in the controller. */
  lemma SetDataDropsDurationAndDismiss(
    c: Controller, snaxType: SnaxType, message: string,
    title: Option<string>, actionTitle: Option<string>, action: Option<ActionId>,
    d1: int, d2: int, o1: Option<DismissId>, o2: Option<DismissId>)
    ensures SetData(c, snaxType, message, title, actionTitle, action, d1, o1)
         == SetData(c, snaxType, message, title, actionTitle, action, d2, o2)
  {
  }

  /**
   Because the flag is a toggle and not a counter, two submissions restore it:
   an observer comparing flag values cannot tell that anything was submitted.
   */
  lemma TwoSubmissionsRestoreFlag(c: Controller, a: SnaxData, b: SnaxData)
    ensures
      var c1 := SetData(c, a.snaxType, a.message, a.title, a.actionTitle, a.action);
      var c2 := SetData(c1, b.snaxType, b.message, b.title, b.actionTitle, b.action);
      c2.updateState == c.updateState && c2.data == Some(b)
  {
  }

  /** Clearing after a submission does not undo the flag flip. */
  lemma ClearKeepsSubmissionFlip(c: Controller, a: SnaxData)
    ensures
      var c1 := ClearData(SetData(c, a.snaxType, a.message, a.title, a.actionTitle, a.action));
      c1.data.None? && c1.updateState != c.updateState
  {
  }

  /**
   A controller operation: a submission, which application code issues, or a clear,
   which is internal to the library (the composable never issues one).
   */
  datatype Op = Submit(request: SnaxData) | Clear

  /** Applies a sequence of operations in order. */
  function Apply(c: Controller, ops: seq<Op>): Controller
    decreases |ops|
  {
    if |ops| == 0 then c
    else
      var c1 := match ops[0]
        case Submit(d) => SetData(c, d.snaxType, d.message, d.title, d.actionTitle, d.action)
        case Clear => ClearData(c);
      Apply(c1, ops[1..])
  }

  /** Number of submissions in a sequence of operations. */
  function Submissions(ops: seq<Op>): nat
    decreases |ops|
  {
    if |ops| == 0 then 0
    else (if ops[0].Submit? then 1 else 0) + Submissions(ops[1..])
  }

  /**
   After any sequence of operations the flag equals its starting value exactly when
   the number of submissions is even: the flag records parity, not count.
   */
  lemma {:induction false} FlagIsSubmissionParity(c: Controller, ops: seq<Op>)
    ensures Apply(c, ops).updateState == (c.updateState != (Submissions(ops) % 2 == 1))
    decreases |ops|
  {
    if |ops| > 0 {
      var c1 := match ops[0]
        case Submit(d) => SetData(c, d.snaxType, d.message, d.title, d.actionTitle, d.action)
        case Clear => ClearData(c);
      FlagIsSubmissionParity(c1, ops[1..]);
    }
  }

  /**
   The stored request is decided by the last operation alone: the last submitted
   record, or none after a final clear. An empty sequence leaves it as it was.
   */
  lemma {:induction false} DataIsLastSubmission(c: Controller, ops: seq<Op>)
    ensures |ops| == 0 ==> Apply(c, ops).data == c.data
    ensures |ops| > 0 && ops[|ops| - 1].Submit? ==> Apply(c, ops).data == Some(ops[|ops| - 1].request)
    ensures |ops| > 0 && ops[|ops| - 1].Clear? ==> Apply(c, ops).data == None
    decreases |ops|
  {
    if |ops| > 0 {
      var c1 := match ops[0]
        case Submit(d) => SetData(c, d.snaxType, d.message, d.title, d.actionTitle, d.action)
        case Clear => ClearData(c);
      DataIsLastSubmission(c1, ops[1..]);
      if |ops| > 1 {
        assert ops[1..][|ops[1..]| - 1] == ops[|ops| - 1];
      }
    }
  }
}

=== FILE: snax_types.dfy ===
/**
 The plain records and enums of the Snax library: the snackbar type, the request
 record kept by the controller, and the two configuration enums. None of them has
 behaviour of its own.
 */
module SnaxTypes {
  import opened Wrappers

  /** A 32-bit ARGB colour, as `androidx.compose.ui.graphics.Color(0xAARRGGBB)`. */
  datatype Color = Color(argb: nat)

  const ColorPrimary: Color := Color(0xFF1C54D4)
  const ColorRed: Color := Color(0xFFF04349)
  const ColorGreen: Color := Color(0xFF00DF80)
  const ColorYellow: Color := Color(0xFFFFD21E)

  /** The kind of snackbar. CUSTOM carries its own palette. */
  datatype SnaxType =
    | ERROR
    | INFO
    | SUCCESS
    | WARNING
    | LOADING
    | CUSTOM(icon: int, backgroundColor: Color, overlayColor: Color,
             contentColor: Color, progressColor: Option<Color>)

  /** Identity of a caller-supplied `() -> Unit` action callback. */
  type ActionId = nat

  /** Identity of a caller-supplied `(dismissedByUser: Boolean) -> Unit` callback. */
  type DismissId = nat

  /**
   The record the controller holds. It has exactly the five fields the library's
   record declares; a per-request duration and dismissal callback are not among them.
   */
  datatype SnaxData = SnaxData(
    snaxType: SnaxType,
    message: string,
    title: Option<string>,
    actionTitle: Option<string>,
    action: Option<ActionId>)

  /** How the user may dismiss a snackbar (declared only; no behaviour attached). */
  datatype DismissBehavior = NOT_DISMISSABLE | SWIPE_HORIZONTAL

  /** The look of the progress indicator (declared only; no behaviour attached). */
  datatype ProgressStyle = LINEAR | SYMMETRIC | STATIC | HIDDEN
}

=== FILE: snax_widget.dfy ===
/**
 The presentation logic of the Snax composable, as a pure step function.

 The composable remembers a `showSnax` flag and runs a disposable effect keyed on
 the controller's `updateState`. Each run of the effect shows the banner when a
 request is present and, when the request has no action, schedules a one-shot
 timer that hides it after the `duration` parameter of the composition that ran
 it. Disposing an effect cancels its timer. The action button, built from the
 request of the last composition, hides the banner and then calls that action.

 Effect instances carry fresh ids and a pending timer is tagged with the id of the
 effect that scheduled it, so a timer firing is the event `TimerFire(owner)`.
 */
module SnaxWidget {
  import opened Wrappers
  import opened SnaxTypes
  import SnaxState

  /** The composable's default `duration` parameter, in milliseconds. */
  const DefaultDuration: int := 3000

  /** One run of the disposable effect and the key value it was started with. */
  datatype Effect = Effect(id: nat, key: bool)

  /** A scheduled hide, owned by the effect run that scheduled it. */
  datatype PendingTimer = PendingTimer(owner: nat, delay: nat)

  /** One invocation of an action callback, and whether the banner was shown at that moment. */
  datatype Call = Call(action: ActionId, bannerShown: bool)

  /**
   The composable's own state: the remembered `showSnax`; the request the banner's
   content (and its action button) was last composed with, none when the last
   composition read `showSnax` false and so composed no content; the live effect
   (none before the first composition and after unmounting); the live effect's
   pending timer; and the next fresh effect id.
   */
  datatype Widget = Widget(
    showSnax: bool,
    composed: Option<SnaxData>,
    effect: Option<Effect>,
    timer: Option<PendingTimer>,
    nextEffect: nat)

  /** A controller shared with the application, one composable, and the log of actions called. */
  datatype Model = Model(state: SnaxState.Controller, widget: Widget, calls: seq<Call>)

  /** `java.util.Timer.schedule` rejects a negative delay with an exception. */
  datatype Fault = IllegalDelay(delay: int)

  /**
   Everything that can happen to the model. A recomposition carries the `duration`
   argument the composable is called with this time.
   */
  datatype Event =
    | SetData(request: SnaxData, requestDuration: int, onDismiss: Option<DismissId>)
    | ClearData
    | Recompose(duration: int := DefaultDuration)
    | Unmount
    | TimerFire(owner: nat)
    | ActionTap

  /** A composable that has not been composed yet. */
  function NewWidget(): (w: Widget)
    ensures !w.showSnax && w.composed.None? && w.effect.None? && w.timer.None?
  {
    Widget(false, None, None, None, 0)
  }

  /** A fresh controller and a composable that has not been composed yet. */
  function Initial(): (m: Model)
    ensures m.state.data.None? && !m.state.updateState
    ensures !m.widget.showSnax && m.widget.composed.None?
    ensures m.widget.effect.None? && m.widget.timer.None?
    ensures m.calls == []
  {
    Model(SnaxState.Fresh(), NewWidget(), [])
  }

  /** Whether a run of the effect with this request schedules a hide: iff it has no action. */
  predicate SchedulesHide(data: Option<SnaxData>) {
    data.None? || data.value.action.None?
  }

  /** Disposing the live effect cancels its timer and leaves `showSnax` as it is. */
  function Dispose(w: Widget): (r: Widget)
    ensures r.effect.None? && r.timer.None?
    ensures r.showSnax == w.showSnax && r.composed == w.composed && r.nextEffect == w.nextEffect
  {
    w.(effect := None, timer := None)
  }

  /**
   One run of the effect with key `key`, reading the latest request `data`: shows the
   banner if there is a request (and otherwise leaves `showSnax` alone) and schedules
   a hide after `duration` exactly when the request has no action.
   */
  function RunEffect(w: Widget, data: Option<SnaxData>, key: bool, duration: int): (r: Result<Widget, Fault>)
    requires w.effect.None? && w.timer.None?
    ensures r.Failure? <==> SchedulesHide(data) && duration < 0
    ensures r.Failure? ==> r.error == IllegalDelay(duration)
    ensures r.Success? ==>
      && r.value.effect == Some(Effect(w.nextEffect, key))
      && r.value.nextEffect == w.nextEffect + 1
      && r.value.composed == w.composed
      && r.value.showSnax == (data.Some? || w.showSnax)
      && (r.value.timer.Some? <==> SchedulesHide(data))
      && (r.value.timer.Some? ==> r.value.timer.value == PendingTimer(w.nextEffect, duration))
  {
    var shown := if data != None then true else w.showSnax;
    var id := w.nextEffect;
    if data == None || data.value.action == None then
      if duration < 0 then Failure(IllegalDelay(duration))
      else Success(w.(showSnax := shown, effect := Some(Effect(id, key)),
                      timer := Some(PendingTimer(id, duration)), nextEffect := id + 1))
    else
      Success(w.(showSnax := shown, effect := Some(Effect(id, key)), timer := None, nextEffect := id + 1))
  }

  /**
   What a composition that reads `showSnax` and `data` puts inside the animated
   banner: the request, or nothing while the banner is hidden.
   */
  function ContentFor(showSnax: bool, data: Option<SnaxData>): (r: Option<SnaxData>)
    ensures r.Some? <==> showSnax && data.Some?
    ensures r.Some? ==> r == data
  {
    if showSnax then data else None
  }

  /** Whether composing now restarts the effect: it is absent, or its key differs from the flag. */
  predicate Rekeys(m: Model) {
    m.widget.effect.None? || m.widget.effect.value.key != m.state.updateState
  }

  /**
   A recomposition with the composable's current `duration`. It composes the
   banner's content from the current request if it reads `showSnax` true, and no
   content otherwise; effects run after the composition, so a banner the effect
   shows here gets its content (and button) only at the next recomposition. When
   the flag differs from the live effect's key (or there is no live effect), the old
   effect is disposed, cancelling its timer, and a new one runs under a fresh id;
   otherwise the effect and its timer stay, and a pending timer keeps the delay it
   was scheduled with.
   */
  function Recomposed(m: Model, duration: int): (r: Result<Model, Fault>)
    ensures !Rekeys(m) ==>
      r == Success(m.(widget := m.widget.(composed := if m.widget.showSnax then m.state.data else None)))
    ensures r.Success? ==>
      && r.value.state == m.state && r.value.calls == m.calls
      && r.value.widget.composed == (if m.widget.showSnax then m.state.data else None)
    ensures Rekeys(m) && r.Success? ==>
      && r.value.widget.effect == Some(Effect(m.widget.nextEffect, m.state.updateState))
      && r.value.widget.nextEffect == m.widget.nextEffect + 1
      && r.value.widget.showSnax == (m.state.data.Some? || m.widget.showSnax)
      && (r.value.widget.timer.Some? <==> SchedulesHide(m.state.data))
      && (r.value.widget.timer.Some? ==>
            r.value.widget.timer.value.owner == m.widget.nextEffect
            && r.value.widget.timer.value.delay == duration)
    ensures r.Failure? <==> Rekeys(m) && SchedulesHide(m.state.data) && duration < 0
    ensures r.Failure? ==> r.error == IllegalDelay(duration)
  {
    var read := m.widget.(composed := ContentFor(m.widget.showSnax, m.state.data));
    if !Rekeys(m) then Success(m.(widget := read))
    else
      match RunEffect(Dispose(read), m.state.data, m.state.updateState, duration)
      case Failure(f) => Failure(f)
      case Success(w) => Success(m.(widget := w))
  }

  /**
   Leaving the composition disposes the effect (cancelling its timer) and forgets the
   remembered `showSnax` and the request it read.
   */
  function Unmounted(m: Model): (r: Model)
    ensures r.widget.effect.None? && r.widget.timer.None?
    ensures !r.widget.showSnax && r.widget.composed.None?
    ensures r.state == m.state && r.calls == m.calls
    ensures r.widget.nextEffect == m.widget.nextEffect
  {
    m.(widget := Dispose(m.widget).(showSnax := false, composed := None))
  }

  /**
   The timer scheduled by effect `owner` fires. Only a timer that is still pending does
   anything, and all it does is hide the banner; a cancelled timer never fires.
   */
  function TimerFired(m: Model, owner: nat): (r: Model)
    ensures r.state == m.state && r.calls == m.calls
    ensures r.widget.effect == m.widget.effect && r.widget.composed == m.widget.composed
    ensures r.widget.nextEffect == m.widget.nextEffect
    ensures r != m ==> m.widget.timer.Some? && m.widget.timer.value.owner == owner
    ensures m.widget.timer.Some? && m.widget.timer.value.owner == owner ==>
      !r.widget.showSnax && r.widget.timer.None?
    ensures m.widget.timer.None? || m.widget.timer.value.owner != owner ==> r == m
  {
    if m.widget.timer.Some? && m.widget.timer.value.owner == owner then
      m.(widget := m.widget.(showSnax := false, timer := None))
    else m
  }

  /**
   Whether the action button is on screen: the banner is shown and its content was
   last composed with a request that has an action.
   */
  predicate ButtonShown(m: Model) {
    m.widget.showSnax && m.widget.composed.Some? && m.widget.composed.value.action.Some?
  }

  /**
   A tap on the action button hides the banner and then calls, once, the action the
   button was built with: that of the request the content was last composed with,
   which may differ from the controller's current one until the next recomposition.
   Without a button on screen a tap does nothing. The call is logged with the value
   `showSnax` has once the hide is done, so the hide-then-call order is written into
   the log by construction.
   */
  function ActionTapped(m: Model): (r: Model)
    ensures !ButtonShown(m) ==> r == m
    ensures ButtonShown(m) ==>
      && r.calls == m.calls + [Call(m.widget.composed.value.action.value, false)]
      && !r.widget.showSnax
    ensures r.state == m.state
    ensures r.widget.effect == m.widget.effect && r.widget.timer == m.widget.timer
    ensures r.widget.composed == m.widget.composed && r.widget.nextEffect == m.widget.nextEffect
  {
    if !ButtonShown(m) then m
    else
      var hidden := m.widget.(showSnax := false);
      m.(widget := hidden, calls := m.calls + [Call(m.widget.composed.value.action.value, hidden.showSnax)])
  }

  /** Applies one event. Only a recomposition can fail. */
  function Step(m: Model, e: Event): Result<Model, Fault>
  {
    match e
    case SetData(d, dur, od) =>
      Success(m.(state := SnaxState.SetData(m.state, d.snaxType, d.message, d.title,
                                             d.actionTitle, d.action, dur, od)))
    case ClearData => Success(m.(state := SnaxState.ClearData(m.state)))
    case Recompose(duration) => Recomposed(m, duration)
    case Unmount => Success(Unmounted(m))
    case TimerFire(o) => Success(TimerFired(m, o))
    case ActionTap => Success(ActionTapped(m))
  }

  /** Applies events in order, stopping at the first fault. */
  function Run(m: Model, events: seq<Event>): Result<Model, Fault>
    decreases |events|
  {
    if |events| == 0 then Success(m)
    else
      match Step(m, events[0])
      case Failure(f) => Failure(f)
      case Success(m1) => Run(m1, events[1..])
  }
}

=== FILE: wrappers.dfy ===
/** Optional values and results: Kotlin's nullable types and thrown exceptions. */
module Wrappers {

  /** A Kotlin `T?`: either `null` (None) or a value. */
  datatype Option<+T> = None | Some(value: T)

  /** The outcome of an operation that may throw. */
  datatype Result<+T, +E> = Success(value: T) | Failure(error: E)
}
